=== FILE: README.md ===
# multi-timer in Dafny

This project models the core of `multi-timer`, a terminal Pomodoro manager
that runs several named timers at once. It covers the following:

- **A timer.** Each timer works through a list of phases. A phase is a work
  period followed by a break. Each phase repeats for a fixed number of
  cycles, or forever when the cycle count is unlimited (`-1`).
- **Tick.** Once a second the manager advances every timer by one tick. It
  removes the timers that completed and produces the desktop notifications
  the timers raised.
- **Parsing.** Durations typed as `MM:SS` or as whole minutes are parsed, and
  so is the cycle-type answer.
- **Commands.** The user can add, pause, reset and delete a timer by its
  1-based position.

The Go program is `main.go`. The model follows it branch for branch:

- `Timers.Update` is `Timer.update`. Its precondition `CanUpdate` is exactly
  the condition under which the Go code does not index outside `phases`.
- `Manager.TickLoop` is the reverse-order loop of `startUpdateLoop`.
- `Duration.ParseDuration` is `parseDuration`.
- `Timers.FromConfig` and `Timers.CreateTimer` build the initial state.
- `Manager.TogglePause`, `Manager.Reset`, `Manager.Delete` and `Manager.Add`
  are the command bodies.

Durations are whole seconds. A notification is returned as a
`Notification(title, body)` value inside the `Step` or tick result, in the
order the Go program would send it. The supporting modules are:

- `Text` holds the Go library behaviour the core relies on: `strings.TrimSpace`
  with Unicode white space, `strings.Split`, `strconv.Atoi`, and the `%d` and
  `%02d` formats.
- `Seqs` holds a generic filter used to state what the tick removes.

Two behaviours of the code are easy to misread; the model keeps them as
written:

- The countdown reaches zero one tick before the phase switches. A work period
  of W seconds therefore lasts W + 1 ticks. A 2-second work period switches to
  its break on the third tick, not the second (`Runs.WorkLasts`,
  `Runs.UnlimitedScenario`).
- `r N` only resets the countdown. It does not reset the work/break flag, the
  cycle or the phase (`Manager.ResetIsPartial`).

## Model

| member | source | states |
|---|---|---|
| Timers.Update | main.go:123-152 | A paused timer is returned unchanged, with no notification. A running timer with time left loses one second. At zero, a work period turns into the break of the current phase and announces "Break: …". At zero, a break either starts the next cycle, moves to the next phase at cycle 1, or completes. It completes exactly when the cycle limit is passed on the last phase, and then the only notification is "All phases completed". An unlimited timer never completes. Name, text, phases, limit and pause flag never change, and a valid timer that does not complete stays valid. |
| Timers.FromConfig | main.go:337-351 | A timer built from a configuration is valid and gives that configuration back. It starts running, in work, at cycle 1 of phase 0, with the first work duration on the clock. |
| Timers.CycleType | main.go:304-311 | The answer gives a positive limit exactly when it parses as a positive integer, and that integer is the limit. Every other answer, including "u", "0" and negative numbers, means unlimited (-1). |
| Timers.CycleTypeItoa | main.go:304-311 | Any positive limit, written in decimal, is read back as that limit. |
| Timers.CycleTypeExamples | main.go:304-311 | "u", "0", "-2" and "x" mean unlimited, and "3" means three cycles. |
| Timers.CreateTimer | main.go:313-334 | The stored configuration holds the name, text and phases as given and the cycle limit read from the answer. The timer created with it is exactly the one that would be rebuilt from that configuration at the next start. |
| Runs.Run | main.go:157-169 | Running a valid timer for any number of ticks keeps it valid until it completes, and leaves its configuration and pause flag alone. |
| Runs.PausedRun | main.go:124-126 | A paused timer is unaffected by any number of ticks. |
| Runs.Countdown | main.go:128-150 | With k ≤ t seconds left, k ticks take exactly k seconds off and change nothing else. |
| Runs.WorkLasts | main.go:128-133 | A work period showing W seconds is still in work at 0 after W ticks. After W + 1 ticks it is on the break of the same phase, and the only notification is the break notice. |
| Runs.UnlimitedNeverCompletes | main.go:136-141 | A timer with an unlimited cycle count never completes, however long it runs. |
| Runs.UpdateConsumesOne | main.go:123-152 | For a bounded timer, `Remaining` counts the ticks until completion. One tick completes the timer exactly when one tick is left, and otherwise uses up exactly one tick. |
| Runs.CompletesOnTime | main.go:123-152 | A running bounded timer has not completed after `Remaining - 1` ticks and has completed after `Remaining` ticks. |
| Runs.UnlimitedScenario | main.go:123-152 | A fresh 2 s work / 1 s break unlimited timer is still in work at 0 after 2 ticks. It is on its break after 3 ticks, and back at work in cycle 2 after 5 ticks. |
| Runs.BoundedScenario | main.go:134-141 | The same timer limited to one cycle is still running after 4 ticks and completes on the 5th. |
| Duration.ParseDuration | main.go:208-227 | After the outer white space is trimmed, text without a colon is accepted exactly when it is an integer, and it means that many minutes. Otherwise the error is the integer-parse error. Trimmed text with more than one colon is a field-count error. Trimmed text with exactly one colon is accepted exactly when both fields are integers; the value is then minutes × 60 + seconds, and otherwise the error is the invalid-numbers error. |
| Duration.ParseFields | main.go:210-226 | Text without a colon is accepted exactly when it is an integer, and it means that many minutes. Otherwise the error is the integer-parse error. Text with more than one colon is a field-count error. Text with exactly one colon is accepted exactly when both fields are integers; the value is then minutes × 60 + seconds, and otherwise the error is the invalid-numbers error. |
| Duration.ParseTrimmed | main.go:209 | Surrounding white space is ignored: text that already has non-space ends parses as itself. |
| Duration.ParseColonForm | main.go:211-220 | For `a:b`, parsing succeeds exactly when both fields are integers. Any failure is the invalid-numbers error. |
| Duration.ParseColonOk | main.go:215-220 | When both fields are integers, the result is minutes × 60 + seconds. |
| Duration.ParseFormatted | main.go:208-227 | Any minutes and seconds written as `m:s` read back as m × 60 + s, signs included. |
| Duration.ParseMinutes | main.go:222-226 | Any whole number of minutes written alone reads back as that many minutes. |
| Duration.ParsePadded | main.go:208-227 | Zero-padded `%02d` fields read back to the same value. |
| Duration.MinutesExample | main.go:222-226 | "5" is 300 seconds. |
| Duration.ColonExample | main.go:210-220 | "1:30" is 90 seconds. |
| Duration.NegativeExample | main.go:220 | "-1:30" is -60 + 30 = -30 seconds, because the sign applies only to the minutes. |
| Duration.TrimmedExample | main.go:209 | " 1:30\n" is 90 seconds. |
| Duration.BadExample | main.go:222-225 | "bad" is rejected with the integer-parse error. |
| Duration.ThreeFieldsExample | main.go:211-214 | "1:2:3" is rejected for its field count. |
| Duration.EmptyFieldExample | main.go:215-219 | "1:" is rejected as invalid numbers. |
| Duration.PaddedFieldExample | main.go:209-219 | "1: 30" is rejected as invalid numbers, because only the outer white space is trimmed. |
| Text.TrimLeft | main.go:209 | The result is a suffix of the input. Every removed character is Unicode white space, and the result is empty or starts with a non-space. |
| Text.TrimRight | main.go:209 | The result is a prefix of the input. Every removed character is Unicode white space, and the result is empty or ends with a non-space. |
| Text.TrimSpace | main.go:209 | The result is no longer than the input, and it is empty or has non-space characters at both ends. |
| Text.TrimSpaceSlice | main.go:209 | Trimming keeps one contiguous slice of the input, and everything dropped before and after it is white space. |
| Text.Split | main.go:211 | Splitting gives one more field than there are separators, no field contains the separator, and joining the fields with the separator gives back the input. |
| Text.SplitAround | main.go:211-212 | Two separator-free texts joined by one separator split back into exactly those two fields. |
| Text.AtoiItoa | main.go:215-222 | Every integer written in decimal parses back to itself. |
| Text.AtoiPad2 | main.go:118 | Every integer written with `%02d` parses back to itself. |
| Text.AtoiRejectsSpace | main.go:215-216 | An accepted integer contains no white space and no colon. |
| Render.Clock | main.go:106-107 | Minutes × 60 + seconds gives back the remaining time. For a non-negative time the seconds are in 0..59. For a negative time both parts are ≤ 0 and the seconds are above -60, which is Go's truncating behaviour. |
| Render.ClockRoundTrip | main.go:106-118 | The displayed `MM:SS` clock parses back, with the duration parser, to exactly the remaining time. |
| Render.ClockExamples | main.go:106-118 | 90 s shows as 1 min 30 s, -90 s as -1 min -30 s, and 65 s as "01:05". |
| Render.CycleTextMarksUnlimited | main.go:109-114 | The cycle text ends in " (∞)" exactly when the timer is unlimited. |
| Render.CycleTextReadsBack | main.go:109-114 | For a bounded timer, the cycle text splits at '/' into the current cycle and the limit, and both parse back. |
| Render.PhaseTextReadsBack | main.go:116 | The phase text is "Phase " followed by the 1-based phase number and the phase count in decimal, split exactly at the one '/'. The two numbers parse back to the phase index plus one and the phase count. |
| Manager.SurvivorsSpec | main.go:161-169 | After a tick the timers left are exactly the updated timers that did not complete, in their original order. |
| Manager.TickLoop | main.go:159-169 | The reverse loop that removes in place gives exactly the survivors. Its notifications come from the last timer first, and display is requested exactly when there was at least one timer. |
| Manager.Tick | main.go:157-179 | A tick leaves the configuration list untouched, never adds timers, and asks for a redraw exactly when timers exist. |
| Manager.TogglePause | main.go:410-418 | `p N` with 1 ≤ N ≤ count flips the pause flag of timer N only. Any other N changes nothing. |
| Manager.TogglePauseTwice | main.go:413-415 | Pausing the same position twice restores the manager. |
| Manager.Reset | main.go:421-429 | `r N` in range sets timer N's countdown to the first phase's work duration and touches nothing else. Out of range it changes nothing. |
| Manager.ResetIdempotent | main.go:424-426 | Resetting twice is the same as resetting once. |
| Manager.ResetIsPartial | main.go:426 | A timer on its break in phase 2 stays on its break in phase 2 after `r 1`, with the first work duration on the clock. |
| Manager.Delete | main.go:432-444 | `d N` in range removes the N-th timer and the N-th configuration and keeps the rest in order. Out of range it changes nothing. |
| Manager.Add | main.go:398-403 | `a` appends the new timer and its configuration at the end of both lists and keeps what was there. |
| Manager.DeleteUndoesAdd | main.go:401-438 | Deleting the position just added restores the manager. |
| Manager.Load | main.go:364-370 | Loading builds, for each stored configuration in order, exactly the fresh timer `timerFromConfig` makes from it: running, in work, at cycle 1 of phase 0, with the first work duration on the clock. The lists start in lock-step, with every timer valid. |
| Manager.CommandsKeepValid | main.go:157-438 | Valid timers are enough for the tick and `r N` to run without an index panic. Valid timers stay valid under the tick, pause, reset, delete and the addition of a valid timer. |
| Manager.LoadIsHealthy | main.go:364-370 | The loaded manager has valid timers and at least as many configurations as timers. |
| Manager.StepsKeepHealthy | main.go:157-438 | From a state with valid timers and enough configurations, no command panics, and the tick and every command lead to such a state again. So, with Manager.LoadIsHealthy, this holds in every state the program reaches. |
| Manager.CommandsKeepLockstep | main.go:398-444 | Pause, reset, delete and add keep timer i and configuration i describing the same timer. |
| Manager.CreatedTimerKeepsLockstep | main.go:399-402 | Adding the pair built by `createTimer` keeps the lists in lock-step. |
| Manager.AsWrittenKeepsCover | main.go:161-169 | Under every command and the tick as written, the configuration list is never shorter than the timer list. So `d N` in range never indexes past the configurations. |
| Manager.CompletionThenDeleteDropsWrongConfig | main.go:164-166 | A tick in which the first of two timers completes breaks lock-step. A following `d 1` then removes the finished timer's configuration, not the one for the timer on screen. |
| Manager.TickLockstep | main.go:161-169 | The corrected tick keeps exactly the same timers as the tick as written, with a configuration list of equal length. |
| Manager.TickLockstepKeepsLockstep | main.go:161-169 | The corrected tick, which drops the completed timers' configurations alongside, keeps the lists in lock-step. |
| Manager.LockstepTickThenDeleteIsConsistent | main.go:435-438 | With the corrected tick, the same two-timer sequence followed by `d 1` removes the surviving timer together with its own configuration. |
| Manager.DeleteRemovesOwnConfig | main.go:435-438 | In lock-step, `d N` removes the configuration of exactly the timer it removes, and lock-step holds after it. |

## Findings

| source | as written | input that shows it | evidently intended | confidence | as-written member | corrected member |
|---|---|---|---|---|---|---|
| main.go:164-166 | A completed timer is removed from the active list only. The configuration list keeps its entry, so timer i and configuration i drift apart. | Timer A is bounded at 1 cycle and is at 0 on the break of its last cycle. Timer B is unlimited. After one tick only B is shown as timer 1. Then `d 1` removes B's timer but A's configuration, and B's configuration stays saved. | `d N` removes the configuration of the N-th timer shown. So a completion drops the configurations at the same positions as the timers. | medium, not executed | Manager.CompletionThenDeleteDropsWrongConfig | Manager.TickLockstep (proved by Manager.TickLockstepKeepsLockstep) |

Dropping the configuration on completion also means a finished timer is not
reloaded at the next start. An alternative fix keeps it on disk and maps
positions through an index. The model uses the simpler correction.

## Left out

- Notifications are returned as values. The desktop notification itself
  (`notify` calling `beeep.Notify`, main.go:93-98) is not modelled.
- JSON persistence is not modelled: `saveTimerConfigs`, `loadTimerConfigs`,
  the phase JSON codec and the load-error branch (main.go:45-66, 184-206,
  356-362). `Manager.Load` takes the decoded configurations as its input.
- Concurrency is not modelled: the ticker goroutine, the mutex, and the
  display channel with its dropped redraw signals (main.go:154-182, 371-380).
  Each tick is one atomic step. This also leaves out a race in the code: each
  command compares its number with `len(tm.activeTimers)` before taking the
  lock (main.go:413, 424, 435). A tick that removes a timer in between can
  make `activeTimers[num-1]` panic.
- Terminal rendering is not modelled: screen clearing, the list layout and
  the "(PAUSED)" marker (main.go:229-263). `Render` covers the numeric
  fields of `Timer.String` (clock, cycle and phase). The assembly of the
  whole line with the name and the Work/Break label (main.go:118-119) is
  not modelled.
- Input handling is not modelled: prompt reading, `createTimer`'s prompt loop
  and re-prompting on bad durations, and the command dispatch (main.go:265-302,
  388-453). The chosen command and its number are parameters.
- `fmt.Sscanf` is not modelled. A failed scan leaves 0, which every command
  treats as out of range, so the number is taken as an `int` input.
- `Runs.Run`: durations are whole seconds, because `parseDuration` only
  produces whole seconds. A stored configuration can hold a nanosecond count
  that is not a whole second, such as 1500000000. Go counts it down in 3
  ticks, and the model has no counterpart for it. The int64 nanosecond
  overflow and the float64 conversion in `Minutes()`/`Seconds()` are not
  modelled either.
- `Text.Atoi` accepts integers of any size. Go's `strconv.Atoi` rejects
  values outside int64; the model leaves that range error out.
- `Text.Split`: the model has only the one-character separator that
  `parseDuration` and the status line use.
- `Text.TrimSpace`: its own contract states only the non-space ends and the
  length bound. `Text.TrimSpaceSlice` states that the result is a contiguous
  slice of the input with only white space dropped around it, and
  `Text.TrimLeft` and `Text.TrimRight` give the exact trim.
- `Manager.Reset` and `Manager.Delete` require what the Go code needs to avoid
  a panic. Reset needs a non-empty phase list on the timer it resets. Delete
  needs a configuration at the deleted position. Where the Go program would
  panic instead, the model has no counterpart. `Manager.LoadIsHealthy` and
  `Manager.StepsKeepHealthy` show that both conditions hold in every
  reachable state.
- `Manager.Load` requires every stored configuration to have at least one
  phase, as `Timers.FromConfig` does. Go instead panics at main.go:341 when
  `timers.json` holds a configuration with empty or null `Phases`, and the
  model has no counterpart for that panic.

=== FILE: duration.dfy ===
/**
 * `parseDuration` (main.go:208-227): "M" or "M:S" to a number of seconds.
 * Durations are whole seconds throughout the model.
 */
module Duration {
  import opened Wrappers
  import opened Text

  /** The three ways the Go function fails. */
  datatype ParseError =
    | WrongFieldCount   // "invalid format, use MM:SS": not exactly one ':'
    | InvalidNumbers    // "invalid numbers": a field around ':' is not an integer
    | NotAnInteger      // the error of strconv.Atoi on colon-free input

  /**
   * Only the whole input is trimmed; the fields around ':' are not, so
   * "1: 30" is rejected. Negative fields pass through arithmetically.
   */
  function ParseDuration(input: string): (r: Result<int, ParseError>)
    ensures var t := TrimSpace(input);
      && (':' !in t ==> (r.Ok? <==> Atoi(t).Some?) && (r.Ok? ==> r.value == Atoi(t).value * 60))
      && (':' !in t && r.Err? ==> r.error == NotAnInteger)
      && (':' in t && Count(t, ':') != 1 ==> r == Err(WrongFieldCount))
    ensures var t := TrimSpace(input);
      Count(t, ':') == 1 ==>
        var parts := Split(t, ':');
        && (r.Ok? <==> Atoi(parts[0]).Some? && Atoi(parts[1]).Some?)
        && (r.Ok? ==> r.value == Atoi(parts[0]).value * 60 + Atoi(parts[1]).value)
        && (r.Err? ==> r.error == InvalidNumbers)
  {
    ParseFields(TrimSpace(input))
  }

  /** The work of `parseDuration` after trimming. */
  function ParseFields(t: string): (r: Result<int, ParseError>)
    ensures ':' !in t ==> (r.Ok? <==> Atoi(t).Some?) && (r.Ok? ==> r.value == Atoi(t).value * 60)
    ensures ':' !in t && r.Err? ==> r.error == NotAnInteger
    ensures ':' in t && Count(t, ':') != 1 ==> r == Err(WrongFieldCount)
    ensures Count(t, ':') == 1 ==>
      var parts := Split(t, ':');
      && (r.Ok? <==> Atoi(parts[0]).Some? && Atoi(parts[1]).Some?)
      && (r.Ok? ==> r.value == Atoi(parts[0]).value * 60 + Atoi(parts[1]).value)
      && (r.Err? ==> r.error == InvalidNumbers)
  {
    if ':' in t then
      var parts := Split(t, ':');
      if |parts| != 2 then Err(WrongFieldCount)
      else
        var minutes := Atoi(parts[0]);
        var seconds := Atoi(parts[1]);
        if minutes.None? || seconds.None? then Err(InvalidNumbers)
        else Ok(minutes.value * 60 + seconds.value)
    else
      match Atoi(t)
      case None => Err(NotAnInteger)
      case Some(m) => Ok(m * 60)
  }

  /** Input without surrounding white space reaches the field parser unchanged. */
  lemma ParseTrimmed(t: string)
    requires |t| > 0 ==> !IsSpace(t[0]) && !IsSpace(t[|t| - 1])
    ensures ParseDuration(t) == ParseFields(t)
  {
    assert TrimLeft(t) == t;
    assert TrimRight(t) == t;
  }

  /**
   * Text with exactly one colon parses iff both fields are integers, to
   * minutes * 60 + seconds.
   */
  lemma ParseColonForm(a: string, b: string)
    requires ':' !in a && ':' !in b
    ensures var r := ParseFields(a + ":" + b);
      && (r.Ok? <==> Atoi(a).Some? && Atoi(b).Some?)
      && (r.Ok? ==> r.value == Atoi(a).value * 60 + Atoi(b).value)
      && (r.Err? ==> r.error == InvalidNumbers)
  {
    var t := a + ":" + b;
    assert t[|a|] == ':';
    SplitAround(a, b, ':');
  }

  /** Two integer fields around a single colon give minutes * 60 + seconds. */
  lemma ParseColonOk(a: string, b: string, minutes: int, seconds: int)
    requires ':' !in a && ':' !in b
    requires Atoi(a) == Some(minutes) && Atoi(b) == Some(seconds)
    ensures ParseFields(a + ":" + b) == Ok(minutes * 60 + seconds)
  {
    var t := a + ":" + b;
    assert t[|a|] == ':';
    SplitAround(a, b, ':');
  }

  lemma FormattedFields(m: int, s: int)
    ensures ParseFields(Itoa(m) + ":" + Itoa(s)) == Ok(m * 60 + s)
  {
    AtoiItoa(m);
    AtoiItoa(s);
    ItoaPlain(m);
    ItoaPlain(s);
    ParseColonOk(Itoa(m), Itoa(s), m, s);
  }

  /** Writing "M:S" with `%d` and parsing it back yields M * 60 + S seconds. */
  lemma ParseFormatted(m: int, s: int)
    ensures ParseDuration(Itoa(m) + ":" + Itoa(s)) == Ok(m * 60 + s)
  {
    FormattedFields(m, s);
    ItoaPlain(m);
    ItoaPlain(s);
    var text := Itoa(m) + ":" + Itoa(s);
    assert text[0] == Itoa(m)[0] && text[|text| - 1] == Itoa(s)[|Itoa(s)| - 1];
    ParseTrimmed(text);
  }

  /** A bare integer M parses to M minutes. */
  lemma ParseMinutes(m: int)
    ensures ParseDuration(Itoa(m)) == Ok(m * 60)
  {
    AtoiItoa(m);
    ItoaPlain(m);
    ParseTrimmed(Itoa(m));
  }

  lemma PaddedFields(m: int, s: int)
    ensures ParseFields(Pad2(m) + ":" + Pad2(s)) == Ok(m * 60 + s)
  {
    AtoiPad2(m);
    AtoiPad2(s);
    Pad2Plain(m);
    Pad2Plain(s);
    ParseColonOk(Pad2(m), Pad2(s), m, s);
  }

  /** The `MM:SS` clock text, zero padded, parses back to its seconds. */
  lemma ParsePadded(m: int, s: int)
    ensures ParseDuration(Pad2(m) + ":" + Pad2(s)) == Ok(m * 60 + s)
  {
    PaddedFields(m, s);
    Pad2Plain(m);
    Pad2Plain(s);
    var text := Pad2(m) + ":" + Pad2(s);
    assert text[0] == Pad2(m)[0] && text[|text| - 1] == Pad2(s)[|Pad2(s)| - 1];
    ParseTrimmed(text);
  }

  lemma ItoaPlain(n: int)
    ensures ':' !in Itoa(n)
    ensures !IsSpace(Itoa(n)[0]) && !IsSpace(Itoa(n)[|Itoa(n)| - 1])
  {
    DigitsHaveNoSign(if n < 0 then -n else n);
  }

  /** A bare number of minutes. */
  lemma MinutesExample()
    ensures ParseDuration("5") == Ok(300)
  {
    ParseMinutes(5);
    assert Itoa(5) == "5";
  }

  /** "M:S" with both fields given. */
  lemma ColonExample()
    ensures ParseDuration("1:30") == Ok(90)
  {
    assert Itoa(1) == "1";
    assert Itoa(30) == "30";
    var text := Itoa(1) + ":" + Itoa(30);
    assert text == "1:30";
    ParseFormatted(1, 30);
  }

  /** A negative field is not rejected: "-1:30" is minus thirty seconds. */
  lemma NegativeExample()
    ensures ParseDuration("-1:30") == Ok(-30)
  {
    assert Digits(1) == "1";
    assert Itoa(-1) == "-1";
    assert Itoa(30) == "30";
    var text := Itoa(-1) + ":" + Itoa(30);
    assert text == "-1:30";
    ParseFormatted(-1, 30);
  }

  /** Only the whole input is trimmed. */
  lemma TrimmedExample()
    ensures ParseDuration(" 1:30\n") == Ok(90)
  {
    var padded := " 1:30\n";
    var tail := "1:30\n";
    assert !IsSpace('1') && !IsSpace('0') && IsSpace(' ');
    assert TrimLeft(tail) == tail;
    assert padded[0] == ' ' && padded[1..] == tail;
    assert TrimLeft(padded) == tail;
    assert IsSpace(tail[4]) && tail[..4] == "1:30";
    assert TrimRight(tail) == TrimRight("1:30");
    ColonExample();
    ParseTrimmed("1:30");
  }

  /** Text that is not an integer. */
  lemma BadExample()
    ensures ParseDuration("bad") == Err(NotAnInteger)
  {
    assert ParseFields("bad") == Err(NotAnInteger) by {
      assert !IsDigit('b');
      assert Atoi("bad").None?;
    }
    assert !IsSpace('b') && !IsSpace('d');
    ParseTrimmed("bad");
  }

  /** More than two fields. */
  lemma ThreeFieldsExample()
    ensures ParseDuration("1:2:3") == Err(WrongFieldCount)
  {
    assert ParseFields("1:2:3") == Err(WrongFieldCount) by {
      assert Count("1:2:3", ':') == 2;
    }
    assert !IsSpace('1') && !IsSpace('3');
    ParseTrimmed("1:2:3");
  }

  /** An empty seconds field. */
  lemma EmptyFieldExample()
    ensures ParseDuration("1:") == Err(InvalidNumbers)
  {
    assert ParseFields("1:") == Err(InvalidNumbers) by {
      ParseColonForm("1", "");
      assert "1" + ":" + "" == "1:";
    }
    assert !IsSpace('1') && !IsSpace(':');
    ParseTrimmed("1:");
  }

  /** The fields themselves are not trimmed. */
  lemma PaddedFieldExample()
    ensures ParseDuration("1: 30") == Err(InvalidNumbers)
  {
    assert ParseFields("1: 30") == Err(InvalidNumbers) by {
      assert !IsDigit(' ');
      assert Atoi(" 30").None?;
      ParseColonForm("1", " 30");
      assert "1" + ":" + " 30" == "1: 30";
    }
    assert !IsSpace('1') && !IsSpace('0');
    ParseTrimmed("1: 30");
  }
}

=== FILE: manager.dfy ===
/**
 * The timer manager (main.go:78-91, 154-182, 353-453): the list of running
 * timers, the parallel list of persisted configs, the once-a-second tick
 * that advances every timer, and the pause, reset, delete and add commands.
 * A command index `n` is the integer read after the command letter, with 0
 * standing for input that did not parse.
 */
module Manager {
  import opened Timers
  import opened Seqs

  datatype TimerManager = TimerManager(activeTimers: seq<Timer>, configs: seq<TimerConfig>)

  predicate AllCanUpdate(ts: seq<Timer>) {
    forall i :: 0 <= i < |ts| ==> CanUpdate(ts[i])
  }

  /** Every running timer is in a well-formed state. */
  predicate AllValid(ts: seq<Timer>) {
    forall i :: 0 <= i < |ts| ==> Valid(ts[i])
  }

  /** Every running timer matches the config at the same position. */
  predicate Lockstep(m: TimerManager) {
    && |m.activeTimers| == |m.configs|
    && forall i :: 0 <= i < |m.activeTimers| ==> ConfigOf(m.activeTimers[i]) == m.configs[i]
  }

  /** The index of a command names a running timer. */
  predicate InRange(m: TimerManager, n: int) {
    1 <= n <= |m.activeTimers|
  }

  // ---- The tick ----

  /** What one update leaves in the list: nothing if it completed, else the updated timer. */
  function Keep(t: Timer): seq<Timer>
    requires CanUpdate(t)
  {
    if Update(t).completed then [] else [Update(t).timer]
  }

  /** Which timers complete on this tick. */
  function Completions(ts: seq<Timer>): (done: seq<bool>)
    requires AllCanUpdate(ts)
    ensures |done| == |ts|
  {
    seq(|ts|, i requires 0 <= i < |ts| => Update(ts[i]).completed)
  }

  /** Every timer after its update. */
  function Updated(ts: seq<Timer>): (us: seq<Timer>)
    requires AllCanUpdate(ts)
    ensures |us| == |ts|
  {
    seq(|ts|, i requires 0 <= i < |ts| => Update(ts[i]).timer)
  }

  /** The list after one tick: the updated timers, without those that completed. */
  function Survivors(ts: seq<Timer>): seq<Timer>
    requires AllCanUpdate(ts)
  {
    Filter(Updated(ts), Completions(ts))
  }

  /** The notifications of one tick, in the order the reverse walk sends them. */
  function TickNotes(ts: seq<Timer>): seq<Notification>
    requires AllCanUpdate(ts)
  {
    if |ts| == 0 then [] else TickNotes(ts[1..]) + Update(ts[0]).notes
  }

  /**
   * A tick updates every timer exactly once and removes exactly those that
   * completed: the survivors are the updates of the non-completing timers,
   * in their original order.
   */
  lemma SurvivorsSpec(ts: seq<Timer>)
    requires AllCanUpdate(ts)
    ensures var ks := Kept(Completions(ts));
      && |Survivors(ts)| == |ks|
      && (forall k :: 0 <= k < |ks| ==>
            ks[k] < |ts| && !Update(ts[ks[k]]).completed && Survivors(ts)[k] == Update(ts[ks[k]]).timer)
      && (forall k, l :: 0 <= k < l < |ks| ==> ks[k] < ks[l])
      && (forall j :: 0 <= j < |ts| && !Update(ts[j]).completed ==> j in ks)
  {
    var done := Completions(ts);
    KeptSound(done);
    KeptSorted(done);
    KeptComplete(done);
    FilterSpec(Updated(ts), done);
  }

  lemma SurvivorsStep(ts: seq<Timer>, i: nat)
    requires AllCanUpdate(ts) && i < |ts|
    ensures Survivors(ts[i..]) == Keep(ts[i]) + Survivors(ts[i + 1..])
    ensures TickNotes(ts[i..]) == TickNotes(ts[i + 1..]) + Update(ts[i]).notes
  {
    var suffix := ts[i..];
    assert suffix[1..] == ts[i + 1..];
    assert Updated(suffix)[1..] == Updated(ts[i + 1..]);
    assert Completions(suffix)[1..] == Completions(ts[i + 1..]);
  }

  /**
   * The loop of `startUpdateLoop`: walk the list from the back, update each
   * timer, cut out the ones that completed, and ask for a redraw iff there
   * was at least one timer.
   */
  method TickLoop(ts: seq<Timer>) returns (timers: seq<Timer>, notes: seq<Notification>, needsDisplay: bool)
    requires AllCanUpdate(ts)
    ensures timers == Survivors(ts)
    ensures notes == TickNotes(ts)
    ensures needsDisplay <==> |ts| > 0
  {
    timers := ts;
    notes := [];
    needsDisplay := false;
    var i := |ts|;
    while i > 0
      invariant 0 <= i <= |ts|
      invariant timers == ts[..i] + Survivors(ts[i..])
      invariant notes == TickNotes(ts[i..])
      invariant needsDisplay <==> i < |ts|
    {
      i := i - 1;
      SurvivorsStep(ts, i);
      assert timers[i] == ts[i];
      var s := Update(timers[i]);
      if s.completed {
        timers := timers[..i] + timers[i + 1..];
      } else {
        timers := timers[i := s.timer];
      }
      assert timers == ts[..i] + Survivors(ts[i..]);
      notes := notes + s.notes;
      needsDisplay := true;
    }
    assert ts[..0] == [] && ts[0..] == ts;
  }

  /** One tick of the manager: the new manager, the redraw request, the notifications. */
  datatype TickResult = TickResult(manager: TimerManager, needsDisplay: bool, notes: seq<Notification>)

  /** The tick as written: completed timers leave `activeTimers` only. */
  function Tick(m: TimerManager): (r: TickResult)
    requires AllCanUpdate(m.activeTimers)
    ensures r.manager.configs == m.configs
    ensures r.needsDisplay <==> |m.activeTimers| > 0
    ensures |r.manager.activeTimers| <= |m.activeTimers|
  {
    TickResult(TimerManager(Survivors(m.activeTimers), m.configs), |m.activeTimers| > 0, TickNotes(m.activeTimers))
  }

  // ---- Commands ----

  /** `p n`: flip the pause flag of timer `n`. */
  function TogglePause(m: TimerManager, n: int): (r: TimerManager)
    ensures r.configs == m.configs && |r.activeTimers| == |m.activeTimers|
    ensures forall i :: 0 <= i < |m.activeTimers| && i != n - 1 ==> r.activeTimers[i] == m.activeTimers[i]
    ensures InRange(m, n) ==>
      r.activeTimers[n - 1] == m.activeTimers[n - 1].(isPaused := !m.activeTimers[n - 1].isPaused)
    ensures !InRange(m, n) ==> r == m
  {
    if n > 0 && n <= |m.activeTimers| then
      var t := m.activeTimers[n - 1];
      m.(activeTimers := m.activeTimers[n - 1 := t.(isPaused := !t.isPaused)])
    else m
  }

  /** Whether timer `n` can be reset without indexing an empty phase list. */
  predicate CanReset(m: TimerManager, n: int) {
    InRange(m, n) ==> |m.activeTimers[n - 1].phases| > 0
  }

  /**
   * `r n`: put the first phase's work time back on timer `n`. Only the time
   * changes: the work/break flag, the cycle and the phase index stay.
   */
  function Reset(m: TimerManager, n: int): (r: TimerManager)
    requires CanReset(m, n)
    ensures r.configs == m.configs && |r.activeTimers| == |m.activeTimers|
    ensures forall i :: 0 <= i < |m.activeTimers| && i != n - 1 ==> r.activeTimers[i] == m.activeTimers[i]
    ensures InRange(m, n) ==>
      var t := m.activeTimers[n - 1];
      r.activeTimers[n - 1] == t.(state := t.state.(currentTime := t.phases[0].workDuration))
    ensures !InRange(m, n) ==> r == m
  {
    if n > 0 && n <= |m.activeTimers| then
      var t := m.activeTimers[n - 1];
      m.(activeTimers := m.activeTimers[n - 1 := t.(state := t.state.(currentTime := t.phases[0].workDuration))])
    else m
  }

  /** Go's slicing of `configs` needs position `n` to exist there too. */
  predicate CanDelete(m: TimerManager, n: int) {
    InRange(m, n) ==> n <= |m.configs|
  }

  /** `d n`: remove position `n` from both lists, keeping the order of the rest. */
  function Delete(m: TimerManager, n: int): (r: TimerManager)
    requires CanDelete(m, n)
    ensures InRange(m, n) ==>
      && |r.activeTimers| == |m.activeTimers| - 1
      && |r.configs| == |m.configs| - 1
      && (forall i :: 0 <= i < n - 1 ==> r.activeTimers[i] == m.activeTimers[i] && r.configs[i] == m.configs[i])
      && (forall i :: n - 1 <= i < |r.activeTimers| ==> r.activeTimers[i] == m.activeTimers[i + 1])
      && (forall i :: n - 1 <= i < |r.configs| ==> r.configs[i] == m.configs[i + 1])
    ensures !InRange(m, n) ==> r == m
  {
    if n > 0 && n <= |m.activeTimers| then
      TimerManager(m.activeTimers[..n - 1] + m.activeTimers[n..], m.configs[..n - 1] + m.configs[n..])
    else m
  }

  /** `a`: append the new timer and its config. */
  function Add(m: TimerManager, t: Timer, c: TimerConfig): (r: TimerManager)
    ensures |r.activeTimers| == |m.activeTimers| + 1 && |r.configs| == |m.configs| + 1
    ensures r.activeTimers[..|m.activeTimers|] == m.activeTimers && r.activeTimers[|m.activeTimers|] == t
    ensures r.configs[..|m.configs|] == m.configs && r.configs[|m.configs|] == c
  {
    TimerManager(m.activeTimers + [t], m.configs + [c])
  }

  /** Start-up: one fresh timer per loaded config. */
  function Load(configs: seq<TimerConfig>): (r: TimerManager)
    requires forall i :: 0 <= i < |configs| ==> |configs[i].phases| > 0
    ensures Lockstep(r)
    ensures r.configs == configs
    ensures AllValid(r.activeTimers)
    ensures forall i :: 0 <= i < |r.activeTimers| ==> r.activeTimers[i] == FromConfig(configs[i])
  {
    TimerManager(seq(|configs|, i requires 0 <= i < |configs| => FromConfig(configs[i])), configs)
  }

  // ---- Command properties ----

  /** Pausing twice restores the manager. */
  lemma TogglePauseTwice(m: TimerManager, n: int)
    ensures TogglePause(TogglePause(m, n), n) == m
  {
  }

  /** Resetting twice is resetting once. */
  lemma ResetIdempotent(m: TimerManager, n: int)
    requires CanReset(m, n)
    ensures CanReset(Reset(m, n), n) && Reset(Reset(m, n), n) == Reset(m, n)
  {
  }

  /** Adding a timer and deleting the last position restores a manager in lock-step. */
  lemma DeleteUndoesAdd(m: TimerManager, t: Timer, c: TimerConfig)
    requires Lockstep(m)
    ensures CanDelete(Add(m, t, c), |m.activeTimers| + 1)
    ensures Delete(Add(m, t, c), |m.activeTimers| + 1) == m
  {
    var a := Add(m, t, c);
    var n := |m.activeTimers| + 1;
    assert a.activeTimers[..n - 1] == m.activeTimers;
    assert a.configs[..n - 1] == m.configs;
  }

  /** The commands keep the two lists in lock-step. */
  lemma CommandsKeepLockstep(m: TimerManager, n: int, t: Timer, c: TimerConfig)
    requires Lockstep(m) && CanReset(m, n)
    ensures Lockstep(TogglePause(m, n))
    ensures Lockstep(Reset(m, n))
    ensures CanDelete(m, n) && Lockstep(Delete(m, n))
    ensures ConfigOf(t) == c ==> Lockstep(Add(m, t, c))
  {
  }

  /** A timer made by `createTimer` joins in lock-step. */
  lemma CreatedTimerKeepsLockstep(m: TimerManager, name: string, notifText: string,
                                  phases: seq<TimerPhase>, cycleAnswer: string)
    requires Lockstep(m) && |phases| > 0
    ensures var (t, c) := CreateTimer(name, notifText, phases, cycleAnswer);
      Lockstep(Add(m, t, c))
  {
  }

  /** Every command and tick keeps at least as many configs as timers, so `d n` never fails. */
  predicate ConfigsCover(m: TimerManager) {
    |m.configs| >= |m.activeTimers|
  }

  lemma AsWrittenKeepsCover(m: TimerManager, n: int, t: Timer, c: TimerConfig)
    requires ConfigsCover(m) && CanReset(m, n) && AllCanUpdate(m.activeTimers)
    ensures CanDelete(m, n)
    ensures ConfigsCover(TogglePause(m, n)) && ConfigsCover(Reset(m, n))
    ensures ConfigsCover(Delete(m, n)) && ConfigsCover(Add(m, t, c))
    ensures ConfigsCover(Tick(m).manager)
  {
  }

  /**
   * Well-formed timers stay well-formed under the tick and every command, and
   * they are what lets the tick and `r n` run without a panic.
   */
  lemma CommandsKeepValid(m: TimerManager, n: int, t: Timer, c: TimerConfig)
    requires AllValid(m.activeTimers)
    ensures AllCanUpdate(m.activeTimers) && CanReset(m, n)
    ensures AllValid(Tick(m).manager.activeTimers)
    ensures AllValid(TogglePause(m, n).activeTimers)
    ensures AllValid(Reset(m, n).activeTimers)
    ensures CanDelete(m, n) ==> AllValid(Delete(m, n).activeTimers)
    ensures Valid(t) ==> AllValid(Add(m, t, c).activeTimers)
  {
    assert AllCanUpdate(m.activeTimers);
    SurvivorsSpec(m.activeTimers);
  }

  /** The invariant of every state the program reaches: loading starts in it, each step keeps it. */
  predicate Healthy(m: TimerManager) {
    ConfigsCover(m) && AllValid(m.activeTimers)
  }

  lemma LoadIsHealthy(configs: seq<TimerConfig>)
    requires forall i :: 0 <= i < |configs| ==> |configs[i].phases| > 0
    ensures Healthy(Load(configs))
  {
  }

  /** In a healthy state no command panics, and every step leads to a healthy state. */
  lemma StepsKeepHealthy(m: TimerManager, n: int, t: Timer, c: TimerConfig)
    requires Healthy(m)
    ensures AllCanUpdate(m.activeTimers) && CanReset(m, n) && CanDelete(m, n)
    ensures Healthy(Tick(m).manager)
    ensures Healthy(TogglePause(m, n)) && Healthy(Reset(m, n)) && Healthy(Delete(m, n))
    ensures Valid(t) ==> Healthy(Add(m, t, c))
  {
    CommandsKeepValid(m, n, t, c);
    AsWrittenKeepsCover(m, n, t, c);
  }

  /** Reset does not restart a timer that is on break in a later phase. */
  lemma ResetIsPartial()
    ensures var phases := [TimerPhase(10, 5), TimerPhase(20, 5)];
      var t := Timer(TimerState(false, 3, 2, 1, "a", "x"), phases, 2, false);
      var r := Reset(TimerManager([t], [ConfigOf(t)]), 1).activeTimers[0];
      && r.state.currentTime == 10
      && !r.state.isWork && r.state.cycles == 2 && r.state.currentPhase == 1
      && r != FromConfig(ConfigOf(t))
  {
  }

  // ---- Lock-step after natural completion ----

  /** Keep the configs whose timers survive the tick. */
  function SurvivorConfigs(ts: seq<Timer>, cs: seq<TimerConfig>): seq<TimerConfig>
    requires AllCanUpdate(ts) && |ts| == |cs|
  {
    Filter(cs, Completions(ts))
  }

  /** The tick with completed timers removed from both lists. */
  function TickLockstep(m: TimerManager): (r: TickResult)
    requires AllCanUpdate(m.activeTimers) && |m.activeTimers| == |m.configs|
    ensures r.manager.activeTimers == Tick(m).manager.activeTimers
    ensures r.needsDisplay <==> |m.activeTimers| > 0
    ensures |r.manager.configs| == |r.manager.activeTimers|
  {
    FilterSpec(Updated(m.activeTimers), Completions(m.activeTimers));
    FilterSpec(m.configs, Completions(m.activeTimers));
    TickResult(TimerManager(Survivors(m.activeTimers), SurvivorConfigs(m.activeTimers, m.configs)),
               |m.activeTimers| > 0, TickNotes(m.activeTimers))
  }

  /** The lock-step tick keeps every surviving timer beside its own config. */
  lemma TickLockstepKeepsLockstep(m: TimerManager)
    requires Lockstep(m) && AllCanUpdate(m.activeTimers)
    ensures Lockstep(TickLockstep(m).manager)
  {
    var ts := m.activeTimers;
    FilterAligned(Updated(ts), m.configs, Completions(ts), ConfigOf);
  }

  /** A two-timer tick, position by position. */
  lemma TwoSurvivors(a: Timer, b: Timer)
    requires CanUpdate(a) && CanUpdate(b)
    ensures Survivors([a, b]) == Keep(a) + Keep(b)
  {
    var ts := [a, b];
    SurvivorsStep(ts, 0);
    SurvivorsStep(ts, 1);
    assert ts[0..] == ts && ts[1..] == [b] && ts[2..] == [];
  }

  /**
   * As written, once a timer completes, `d 1` deletes the next timer but the
   * completed timer's config, so the deleted timer's config stays on disk.
   */
  lemma CompletionThenDeleteDropsWrongConfig()
    ensures var a := Timer(TimerState(false, 0, 1, 0, "a", "x"), [TimerPhase(1, 1)], 1, false);
      var b := Timer(TimerState(true, 5, 1, 0, "b", "y"), [TimerPhase(5, 1)], Unlimited, false);
      var m := TimerManager([a, b], [ConfigOf(a), ConfigOf(b)]);
      var after := Tick(m).manager;
      && Lockstep(m)
      && !Lockstep(after)
      && Delete(after, 1) == TimerManager([], [ConfigOf(b)])
  {
    var a := Timer(TimerState(false, 0, 1, 0, "a", "x"), [TimerPhase(1, 1)], 1, false);
    var b := Timer(TimerState(true, 5, 1, 0, "b", "y"), [TimerPhase(5, 1)], Unlimited, false);
    assert Update(a).completed;
    assert !Update(b).completed;
    TwoSurvivors(a, b);
  }

  /** With the lock-step tick, the same `d 1` removes the deleted timer's own config. */
  lemma LockstepTickThenDeleteIsConsistent()
    ensures var a := Timer(TimerState(false, 0, 1, 0, "a", "x"), [TimerPhase(1, 1)], 1, false);
      var b := Timer(TimerState(true, 5, 1, 0, "b", "y"), [TimerPhase(5, 1)], Unlimited, false);
      var after := TickLockstep(TimerManager([a, b], [ConfigOf(a), ConfigOf(b)])).manager;
      Delete(after, 1) == TimerManager([], [])
  {
    var a := Timer(TimerState(false, 0, 1, 0, "a", "x"), [TimerPhase(1, 1)], 1, false);
    var b := Timer(TimerState(true, 5, 1, 0, "b", "y"), [TimerPhase(5, 1)], Unlimited, false);
    assert Update(a).completed;
    assert !Update(b).completed;
    TwoSurvivors(a, b);
    assert Completions([a, b]) == [true, false];
    assert Filter([ConfigOf(a), ConfigOf(b)], [true, false]) == [ConfigOf(b)];
  }

  /** In lock-step, deleting position `n` removes exactly that timer's config. */
  lemma DeleteRemovesOwnConfig(m: TimerManager, n: int)
    requires Lockstep(m) && InRange(m, n)
    ensures m.configs[n - 1] == ConfigOf(m.activeTimers[n - 1])
    ensures Lockstep(Delete(m, n))
  {
  }
}

=== FILE: render.dfy ===
/**
 * The status line of `Timer.String` (main.go:100-120) for whole-second
 * durations, and the facts a reader of that line can rely on.
 */
module Render {
  import opened Wrappers
  import opened Text
  import opened Timers
  import Duration

  /** Go's `/` on integers: the quotient truncated toward zero. */
  function Quot(a: int, b: int): int
    requires b > 0
  {
    if a >= 0 then a / b else -((-a) / b)
  }

  /**
   * Minutes and seconds of a duration: `int(d.Minutes())` truncates toward
   * zero and Go's `%` keeps the dividend's sign.
   */
  function Clock(secs: int): (r: (int, int))
    ensures r.0 * 60 + r.1 == secs
    ensures secs >= 0 ==> r.0 >= 0 && 0 <= r.1 < 60
    ensures secs < 0 ==> r.0 <= 0 && -60 < r.1 <= 0
  {
    var minutes := Quot(secs, 60);
    (minutes, secs - minutes * 60)
  }

  /** The `%02d:%02d` field. */
  function ClockText(secs: int): string {
    Pad2(Clock(secs).0) + ":" + Pad2(Clock(secs).1)
  }

  /** "N (∞)" for an unlimited timer, "N/max" otherwise. */
  function CycleText(t: Timer): string {
    Itoa(t.state.cycles) + (if t.maxCycles == Unlimited then " (∞)" else "/" + Itoa(t.maxCycles))
  }

  /** "Phase i/total" with the phase counted from one. */
  function PhaseText(t: Timer): string {
    "Phase " + Itoa(t.state.currentPhase + 1) + "/" + Itoa(|t.phases|)
  }

  /** The clock field, typed back in as a duration, gives exactly the time left. */
  lemma ClockRoundTrip(secs: int)
    ensures Duration.ParseDuration(ClockText(secs)) == Ok(secs)
  {
    var c := Clock(secs);
    var text := Pad2(c.0) + ":" + Pad2(c.1);
    Duration.ParsePadded(c.0, c.1);
    assert Duration.ParseDuration(text).Ok?;
    assert Duration.ParseDuration(text).value == secs;
    assert ClockText(secs) == text;
  }

  /** The cycle field carries the infinity marker iff the timer is unlimited. */
  lemma CycleTextMarksUnlimited(t: Timer)
    ensures var s := CycleText(t);
      (|s| >= 4 && s[|s| - 4..] == " (∞)") <==> t.maxCycles == Unlimited
  {
    var s := CycleText(t);
    if t.maxCycles != Unlimited {
      ItoaChars(t.maxCycles);
      assert s[|s| - 1] == Itoa(t.maxCycles)[|Itoa(t.maxCycles)| - 1];
      assert IsDigit(s[|s| - 1]);
    }
  }

  lemma ItoaNoSlash(n: int)
    ensures '/' !in Itoa(n)
  {
    ItoaChars(n);
  }

  /** A bounded timer's cycle field reads back as its cycle number and bound. */
  lemma CycleTextReadsBack(t: Timer)
    requires t.maxCycles != Unlimited
    ensures var parts := Split(CycleText(t), '/');
      |parts| == 2 && Atoi(parts[0]) == Some(t.state.cycles) && Atoi(parts[1]) == Some(t.maxCycles)
  {
    ItoaNoSlash(t.state.cycles);
    ItoaNoSlash(t.maxCycles);
    SplitAround(Itoa(t.state.cycles), Itoa(t.maxCycles), '/');
    assert CycleText(t) == Itoa(t.state.cycles) + ['/'] + Itoa(t.maxCycles);
    AtoiItoa(t.state.cycles);
    AtoiItoa(t.maxCycles);
  }

  /**
   * The phase field reads back as the one-based phase number and the phase
   * count.
   */
  lemma PhaseTextReadsBack(t: Timer)
    ensures var s := PhaseText(t);
      && s[..6] == "Phase "
      && Split(s[6..], '/') == [Itoa(t.state.currentPhase + 1), Itoa(|t.phases|)]
    ensures var parts := Split(PhaseText(t)[6..], '/');
      Atoi(parts[0]) == Some(t.state.currentPhase + 1) && Atoi(parts[1]) == Some(|t.phases|)
  {
    var s := PhaseText(t);
    ItoaNoSlash(t.state.currentPhase + 1);
    ItoaNoSlash(|t.phases|);
    assert s[6..] == Itoa(t.state.currentPhase + 1) + ['/'] + Itoa(|t.phases|);
    SplitAround(Itoa(t.state.currentPhase + 1), Itoa(|t.phases|), '/');
    AtoiItoa(t.state.currentPhase + 1);
    AtoiItoa(|t.phases|);
  }

  lemma ClockExamples()
    ensures Clock(90) == (1, 30)
    ensures Clock(0) == (0, 0)
    ensures Clock(-90) == (-1, -30)
    ensures ClockText(65) == "01:05"
  {
    assert Itoa(1) == "1" && Itoa(5) == "5";
  }
}

=== FILE: runs.dfy ===
/**
 * Consequences of `Timer.update` (main.go:123-152) over many ticks: how long
 * a sub-phase lasts, that unlimited timers run forever, and exactly when a
 * bounded timer completes.
 */
module Runs {
  import opened Timers

  /** `n` consecutive updates, stopping at completion (the caller then drops the timer). */
  function Run(t: Timer, n: nat): (r: Step)
    requires Valid(t)
    ensures !r.completed ==> Valid(r.timer)
    ensures ConfigOf(r.timer) == ConfigOf(t) && r.timer.isPaused == t.isPaused
    decreases n
  {
    if n == 0 then Step(t, false, [])
    else
      var s := Update(t);
      if s.completed then s
      else
        var rest := Run(s.timer, n - 1);
        Step(rest.timer, rest.completed, s.notes + rest.notes)
  }

  /** A paused timer stays exactly as it is, however long it waits. */
  lemma {:induction false} PausedRun(t: Timer, n: nat)
    requires Valid(t) && t.isPaused
    ensures Run(t, n) == Step(t, false, [])
  {
    if n > 0 {
      PausedRun(t, n - 1);
    }
  }

  /** Running `a` ticks and then `b` more is running `a + b` ticks. */
  lemma {:induction false} RunSplit(t: Timer, a: nat, b: nat)
    requires Valid(t) && !Run(t, a).completed
    ensures var first := Run(t, a); var second := Run(first.timer, b);
      Run(t, a + b) == Step(second.timer, second.completed, first.notes + second.notes)
    decreases a
  {
    if a > 0 {
      var s := Update(t);
      assert !s.completed;
      RunSplit(s.timer, a - 1, b);
      var first := Run(s.timer, a - 1);
      var second := Run(first.timer, b);
      assert Run(t, a) == Step(first.timer, first.completed, s.notes + first.notes);
      assert Run(t, a + b) == (var rest := Run(s.timer, a - 1 + b);
        Step(rest.timer, rest.completed, s.notes + rest.notes));
      assert s.notes + (first.notes + second.notes) == (s.notes + first.notes) + second.notes;
    }
  }

  /** While time is left, each tick only takes one second off. */
  lemma {:induction false} Countdown(t: Timer, k: nat)
    requires Valid(t) && !t.isPaused && k <= t.state.currentTime
    ensures Run(t, k) == Step(t.(state := t.state.(currentTime := t.state.currentTime - k)), false, [])
    decreases k
  {
    if k > 0 {
      var s := Update(t);
      assert s.timer == t.(state := t.state.(currentTime := t.state.currentTime - 1));
      Countdown(s.timer, k - 1);
    }
  }

  /**
   * A work period with W >= 0 seconds left lasts W + 1 ticks: the time
   * reaches zero after W ticks and the break starts on the tick after.
   */
  lemma WorkLasts(t: Timer)
    requires Valid(t) && !t.isPaused && t.state.isWork && t.state.currentTime >= 0
    ensures var w := t.state.currentTime;
      && Run(t, w).timer.state.isWork
      && Run(t, w).timer.state.currentTime == 0
      && Run(t, w).notes == []
    ensures var r := Run(t, t.state.currentTime + 1);
      && !r.completed
      && !r.timer.state.isWork
      && r.timer.state.currentTime == t.phases[t.state.currentPhase].breakDuration
      && r.timer.state.cycles == t.state.cycles
      && r.timer.state.currentPhase == t.state.currentPhase
      && r.notes == [BreakNote(t)]
  {
    var w := t.state.currentTime;
    Countdown(t, w);
    RunSplit(t, w, 1);
    var z := Run(t, w).timer;
    assert Run(z, 1) == Update(z);
  }

  /** A timer without a cycle bound never completes. */
  lemma {:induction false} UnlimitedNeverCompletes(t: Timer, n: nat)
    requires Valid(t) && t.maxCycles == Unlimited
    ensures !Run(t, n).completed
    decreases n
  {
    if n > 0 {
      UnlimitedNeverCompletes(Update(t).timer, n - 1);
    }
  }

  // ---- Exact completion time of a bounded timer ----

  /** Ticks a sub-phase with `d` seconds left takes: `d + 1`, or one if `d <= 0`. */
  function Ticks(d: int): nat {
    if d > 0 then d + 1 else 1
  }

  /** Ticks for one full work-and-break cycle of a phase. */
  function CycleTicks(p: TimerPhase): nat {
    Ticks(p.workDuration) + Ticks(p.breakDuration)
  }

  /** Ticks for `k` full cycles of a phase. */
  function CyclesTicks(k: int, p: TimerPhase): nat
    decreases k
  {
    if k <= 0 then 0 else CycleTicks(p) + CyclesTicks(k - 1, p)
  }

  /** Ticks for `maxCycles` full cycles of every phase from index `q` on. */
  function PhasesTicks(phases: seq<TimerPhase>, q: nat, maxCycles: int): nat
    decreases |phases| - q
  {
    if q >= |phases| then 0
    else CyclesTicks(maxCycles, phases[q]) + PhasesTicks(phases, q + 1, maxCycles)
  }

  /** A bounded timer in a reachable state: cycles within the bound. */
  predicate BoundedValid(t: Timer) {
    Valid(t) && t.maxCycles >= 1 && t.state.cycles <= t.maxCycles
  }

  /** The number of ticks a running bounded timer has left until it completes. */
  function Remaining(t: Timer): nat
    requires BoundedValid(t)
  {
    var p := t.phases[t.state.currentPhase];
    Ticks(t.state.currentTime)
      + (if t.state.isWork then Ticks(p.breakDuration) else 0)
      + CyclesTicks(t.maxCycles - t.state.cycles, p)
      + PhasesTicks(t.phases, t.state.currentPhase + 1, t.maxCycles)
  }

  lemma CountdownConsumesOne(t: Timer)
    requires BoundedValid(t) && !t.isPaused && t.state.currentTime > 0
    ensures !Update(t).completed && BoundedValid(Update(t).timer)
    ensures Remaining(t) >= 2 && Remaining(Update(t).timer) == Remaining(t) - 1
  {
  }

  lemma WorkEndConsumesOne(t: Timer)
    requires BoundedValid(t) && !t.isPaused && t.state.currentTime <= 0 && t.state.isWork
    ensures !Update(t).completed && BoundedValid(Update(t).timer)
    ensures Remaining(t) >= 2 && Remaining(Update(t).timer) == Remaining(t) - 1
  {
  }

  lemma NextCycleConsumesOne(t: Timer)
    requires BoundedValid(t) && BreakEnds(t) && t.state.cycles < t.maxCycles
    ensures !Update(t).completed && BoundedValid(Update(t).timer)
    ensures Remaining(t) >= 2 && Remaining(Update(t).timer) == Remaining(t) - 1
  {
  }

  lemma NextPhaseConsumesOne(t: Timer)
    requires BoundedValid(t) && BreakEnds(t) && t.state.cycles == t.maxCycles
    requires t.state.currentPhase + 1 < |t.phases|
    ensures !Update(t).completed && BoundedValid(Update(t).timer)
    ensures Remaining(t) >= 2 && Remaining(Update(t).timer) == Remaining(t) - 1
  {
    var ph := t.state.currentPhase;
    var q := t.phases[ph + 1];
    var m := t.maxCycles;
    assert PhasesTicks(t.phases, ph + 1, m) == CyclesTicks(m, q) + PhasesTicks(t.phases, ph + 2, m);
  }

  lemma LastBreakCompletes(t: Timer)
    requires BoundedValid(t) && BreakEnds(t) && t.state.cycles == t.maxCycles
    requires t.state.currentPhase + 1 == |t.phases|
    ensures Update(t).completed && Remaining(t) == 1
  {
  }

  /**
   * Every tick of a running bounded timer uses up exactly one of its
   * remaining ticks, and it completes on the tick that uses the last one.
   */
  lemma UpdateConsumesOne(t: Timer)
    requires BoundedValid(t) && !t.isPaused
    ensures Update(t).completed <==> Remaining(t) == 1
    ensures !Update(t).completed ==>
      BoundedValid(Update(t).timer) && Remaining(Update(t).timer) == Remaining(t) - 1
  {
    if t.state.currentTime > 0 {
      CountdownConsumesOne(t);
    } else if t.state.isWork {
      WorkEndConsumesOne(t);
    } else if t.state.cycles < t.maxCycles {
      NextCycleConsumesOne(t);
    } else if t.state.currentPhase + 1 < |t.phases| {
      NextPhaseConsumesOne(t);
    } else {
      LastBreakCompletes(t);
    }
  }

  /**
   * A running bounded timer completes on exactly its `Remaining(t)`-th tick,
   * and not before.
   */
  lemma {:induction false} CompletesOnTime(t: Timer)
    requires BoundedValid(t) && !t.isPaused
    ensures !Run(t, Remaining(t) - 1).completed
    ensures Run(t, Remaining(t)).completed
    decreases Remaining(t)
  {
    UpdateConsumesOne(t);
    var s := Update(t);
    if !s.completed {
      CompletesOnTime(s.timer);
      assert Run(t, Remaining(t)) == (var rest := Run(s.timer, Remaining(t) - 1);
        Step(rest.timer, rest.completed, s.notes + rest.notes));
    }
  }

  // ---- The single-phase scenarios: work 2s, break 1s ----

  const Phase21 := TimerPhase(2, 1)

  function Fresh(maxCycles: int): Timer {
    FromConfig(TimerConfig("focus", "go", [Phase21], maxCycles))
  }

  /**
   * Unlimited: the break starts on the third tick (two seconds counted down,
   * then the switch), work resumes on the fifth with the cycle count at 2.
   */
  lemma UnlimitedScenario()
    ensures var r := Run(Fresh(Unlimited), 2);
      r.timer.state.isWork && r.timer.state.currentTime == 0
    ensures var r := Run(Fresh(Unlimited), 3);
      !r.timer.state.isWork && r.timer.state.currentTime == 1
    ensures var r := Run(Fresh(Unlimited), 5);
      r.timer.state.isWork && r.timer.state.currentTime == 2 && r.timer.state.cycles == 2
  {
    var t := Fresh(Unlimited);
    WorkLasts(t);
    var b := Run(t, 3).timer;
    RunSplit(t, 3, 2);
    Countdown(b, 1);
    RunSplit(b, 1, 1);
  }

  /** One bounded cycle: the timer completes on tick five, not before. */
  lemma BoundedScenario()
    ensures !Run(Fresh(1), 4).completed
    ensures Run(Fresh(1), 5).completed
  {
    var t := Fresh(1);
    assert Remaining(t) == 5;
    CompletesOnTime(t);
  }
}

=== FILE: seqs.dfy ===
/** Removing marked elements from a sequence while keeping the order of the rest. */
module Seqs {

  /** The elements of `xs` whose flag in `drop` is false, in order. */
  function Filter<T>(xs: seq<T>, drop: seq<bool>): (r: seq<T>)
    requires |xs| == |drop|
    ensures |r| <= |xs|
  {
    if |xs| == 0 then [] else (if drop[0] then [] else [xs[0]]) + Filter(xs[1..], drop[1..])
  }

  function Shift(ks: seq<nat>): (r: seq<nat>)
    ensures |r| == |ks| && forall k :: 0 <= k < |ks| ==> r[k] == ks[k] + 1
  {
    seq(|ks|, k requires 0 <= k < |ks| => ks[k] + 1)
  }

  /** The positions whose flag is false, in increasing order. */
  function Kept(drop: seq<bool>): (ks: seq<nat>)
    ensures forall k :: 0 <= k < |ks| ==> ks[k] < |drop|
  {
    if |drop| == 0 then [] else (if drop[0] then [] else [0]) + Shift(Kept(drop[1..]))
  }

  /** `Kept` lists only unflagged positions. */
  lemma {:induction false} KeptSound(drop: seq<bool>)
    ensures forall k :: 0 <= k < |Kept(drop)| ==> !drop[Kept(drop)[k]]
  {
    if |drop| > 0 {
      var tail := drop[1..];
      KeptSound(tail);
      var rest := Kept(tail);
      var head: seq<nat> := if drop[0] then [] else [0];
      var ks := Kept(drop);
      assert ks == head + Shift(rest);
      forall k | |head| <= k < |ks|
        ensures !drop[ks[k]]
      {
        assert drop[ks[k]] == tail[rest[k - |head|]];
      }
    }
  }

  /** `Kept` lists positions in strictly increasing order, so each at most once. */
  lemma {:induction false} KeptSorted(drop: seq<bool>)
    ensures forall k, l :: 0 <= k < l < |Kept(drop)| ==> Kept(drop)[k] < Kept(drop)[l]
  {
    if |drop| > 0 {
      KeptSorted(drop[1..]);
      var rest := Kept(drop[1..]);
      var head: seq<nat> := if drop[0] then [] else [0];
      assert Kept(drop) == head + Shift(rest);
    }
  }

  /** `Kept` lists every unflagged position. */
  lemma {:induction false} KeptComplete(drop: seq<bool>)
    ensures forall j :: 0 <= j < |drop| && !drop[j] ==> j in Kept(drop)
  {
    if |drop| > 0 {
      var tail := drop[1..];
      KeptComplete(tail);
      var rest := Kept(tail);
      var head: seq<nat> := if drop[0] then [] else [0];
      var ks := Kept(drop);
      assert ks == head + Shift(rest);
      forall j | 0 < j < |drop| && !drop[j]
        ensures j in ks
      {
        assert tail[j - 1] == drop[j];
        var k :| 0 <= k < |rest| && rest[k] == j - 1;
        assert ks[|head| + k] == j;
      }
    }
  }

  /** The filtered sequence holds the elements at the kept positions, in order. */
  lemma {:induction false} FilterSpec<T>(xs: seq<T>, drop: seq<bool>)
    requires |xs| == |drop|
    ensures var ks := Kept(drop);
      && |Filter(xs, drop)| == |ks|
      && forall k :: 0 <= k < |ks| ==> Filter(xs, drop)[k] == xs[ks[k]]
  {
    if |xs| > 0 {
      FilterSpec(xs[1..], drop[1..]);
      var rest := Kept(drop[1..]);
      var head: seq<nat> := if drop[0] then [] else [0];
      var ks := Kept(drop);
      assert ks == head + Shift(rest);
      forall k | 0 <= k < |ks|
        ensures Filter(xs, drop)[k] == xs[ks[k]]
      {
        if k >= |head| {
          assert xs[ks[k]] == xs[1..][rest[k - |head|]];
        }
      }
    }
  }

  /** Filtering with the same flags keeps two equally long sequences aligned. */
  lemma {:induction false} FilterAligned<T, U>(xs: seq<T>, ys: seq<U>, drop: seq<bool>, f: T -> U)
    requires |xs| == |drop| && |ys| == |drop|
    requires forall i :: 0 <= i < |xs| ==> f(xs[i]) == ys[i]
    ensures |Filter(xs, drop)| == |Filter(ys, drop)|
    ensures forall i :: 0 <= i < |Filter(xs, drop)| ==> f(Filter(xs, drop)[i]) == Filter(ys, drop)[i]
  {
    FilterSpec(xs, drop);
    FilterSpec(ys, drop);
  }
}

=== FILE: text.dfy ===
/**
 * The pieces of Go's `strings` and `strconv` packages that the timer program
 * relies on: `TrimSpace`, `Contains`, `Split` on one separator, `Atoi` and the
 * `%d` / `%02d` integer formatting of `fmt`. Integers are unbounded here, so
 * the 64-bit range check of `Atoi` is not modelled.
 */
module Text {
  import opened Wrappers

  /** Go's `unicode.IsSpace`: the Unicode White_Space property. */
  predicate IsSpace(c: char) {
    || c == ' ' || c == '\t' || c == '\n' || c == '\U{000B}' || c == '\U{000C}' || c == '\r'
    || c == '\U{0085}' || c == '\U{00A0}' || c == '\U{1680}'
    || ('\U{2000}' <= c <= '\U{200A}')
    || c == '\U{2028}' || c == '\U{2029}' || c == '\U{202F}' || c == '\U{205F}' || c == '\U{3000}'
  }

  function TrimLeft(s: string): (r: string)
    ensures |r| <= |s| && r == s[|s| - |r|..]
    ensures |r| > 0 ==> !IsSpace(r[0])
    ensures forall i :: 0 <= i < |s| - |r| ==> IsSpace(s[i])
  {
    if |s| > 0 && IsSpace(s[0]) then TrimLeft(s[1..]) else s
  }

  function TrimRight(s: string): (r: string)
    ensures |r| <= |s| && r == s[..|r|]
    ensures |r| > 0 ==> !IsSpace(r[|r| - 1])
    ensures forall i :: |r| <= i < |s| ==> IsSpace(s[i])
  {
    if |s| > 0 && IsSpace(s[|s| - 1]) then TrimRight(s[..|s| - 1]) else s
  }

  /** `strings.TrimSpace`: drop leading and trailing white space. */
  function TrimSpace(s: string): (r: string)
    ensures |r| > 0 ==> !IsSpace(r[0]) && !IsSpace(r[|r| - 1])
    ensures |r| <= |s|
  {
    TrimRight(TrimLeft(s))
  }

  /**
   * `TrimSpace` keeps one contiguous slice of its input and drops only white
   * space on either side of it.
   */
  lemma TrimSpaceSlice(s: string)
    ensures exists i, j ::
      && 0 <= i <= j <= |s|
      && TrimSpace(s) == s[i..j]
      && (forall k :: 0 <= k < i ==> IsSpace(s[k]))
      && (forall k :: j <= k < |s| ==> IsSpace(s[k]))
  {
    var l := TrimLeft(s);
    var r := TrimRight(l);
    var i := |s| - |l|;
    var j := i + |r|;
    assert l == s[i..];
    assert r == l[..|r|];
    assert r == s[i..j];
    assert forall k :: 0 <= k < i ==> IsSpace(s[k]);
    forall k | j <= k < |s|
      ensures IsSpace(s[k])
    {
      assert s[k] == l[k - i];
    }
    assert TrimSpace(s) == s[i..j];
  }

  /** The number of occurrences of `c` in `s`. */
  function Count(s: string, c: char): nat {
    if |s| == 0 then 0 else (if s[0] == c then 1 else 0) + Count(s[1..], c)
  }

  /** `strings.Join(parts, [sep])`: the fields with `sep` between neighbours. */
  function Join(parts: seq<string>, sep: char): string
    requires |parts| > 0
  {
    if |parts| == 1 then parts[0] else parts[0] + [sep] + Join(parts[1..], sep)
  }

  /** `strings.Split(s, [sep])`: the fields between occurrences of `sep`. */
  function Split(s: string, sep: char): (parts: seq<string>)
    ensures |parts| == Count(s, sep) + 1
    ensures forall k :: 0 <= k < |parts| ==> sep !in parts[k]
    ensures Join(parts, sep) == s
  {
    if |s| == 0 then [""]
    else
      var rest := Split(s[1..], sep);
      if s[0] == sep then [""] + rest
      else [[s[0]] + rest[0]] + rest[1..]
  }

  /** Splitting text with exactly one separator gives the text on each side. */
  lemma {:induction false} SplitAround(a: string, b: string, sep: char)
    requires sep !in a && sep !in b
    ensures Split(a + [sep] + b, sep) == [a, b]
  {
    if |a| == 0 {
      assert a + [sep] + b == [sep] + b;
      SplitNone(b, sep);
    } else {
      SplitAround(a[1..], b, sep);
      assert (a + [sep] + b)[1..] == a[1..] + [sep] + b;
      assert [a[0]] + a[1..] == a;
    }
  }

  /** Text without the separator is a single field. */
  lemma {:induction false} SplitNone(s: string, sep: char)
    requires sep !in s
    ensures Split(s, sep) == [s]
  {
    if |s| > 0 {
      SplitNone(s[1..], sep);
      assert [s[0]] + s[1..] == s;
    }
  }

  predicate IsDigit(c: char) {
    '0' <= c <= '9'
  }

  predicate AllDigits(s: string) {
    forall i :: 0 <= i < |s| ==> IsDigit(s[i])
  }

  function DigitValue(c: char): nat
    requires IsDigit(c)
  {
    (c as int - '0' as int) as nat
  }

  function DigitChar(d: nat): (c: char)
    requires d < 10
    ensures IsDigit(c) && DigitValue(c) == d
  {
    ('0' as int + d) as char
  }

  /** The decimal value of a run of digits, most significant first. */
  function DigitsValue(s: string): nat
    requires AllDigits(s)
  {
    if |s| == 0 then 0 else DigitsValue(s[..|s| - 1]) * 10 + DigitValue(s[|s| - 1])
  }

  /**
   * `strconv.Atoi`: an optional `+` or `-` followed by at least one ASCII
   * digit, nothing else (no white space, no underscores).
   */
  function Atoi(s: string): Option<int>
  {
    var neg := |s| > 0 && s[0] == '-';
    var body := if |s| > 0 && (s[0] == '+' || s[0] == '-') then s[1..] else s;
    if |body| == 0 || !AllDigits(body) then None
    else if neg then Some(-(DigitsValue(body) as int))
    else Some(DigitsValue(body))
  }

  /** The decimal digits of a natural number, without leading zeros. */
  function Digits(n: nat): (s: string)
    ensures |s| > 0 && AllDigits(s)
  {
    if n < 10 then [DigitChar(n)] else Digits(n / 10) + [DigitChar(n % 10)]
  }

  /** `fmt`'s `%d`: a minus sign for negative values, then the digits. */
  function Itoa(n: int): (s: string)
    ensures |s| > 0
  {
    if n < 0 then "-" + Digits(-n) else Digits(n)
  }

  /** `fmt`'s `%02d`: zero-padded to width two; the sign counts towards the width. */
  function Pad2(n: int): (s: string)
    ensures |s| >= 2
  {
    if 0 <= n < 10 then "0" + Itoa(n) else Itoa(n)
  }

  lemma {:induction false} DigitsValueOfDigits(n: nat)
    ensures DigitsValue(Digits(n)) == n
  {
    if n >= 10 {
      DigitsValueOfDigits(n / 10);
      var s := Digits(n);
      assert s[..|s| - 1] == Digits(n / 10);
    }
  }

  lemma {:induction false} DigitsHaveNoSign(n: nat)
    ensures Digits(n)[0] != '-' && Digits(n)[0] != '+'
    ensures forall c :: c in Digits(n) ==> IsDigit(c)
  {
  }

  /** The digits of a natural number, unsigned, read back as that number. */
  lemma AtoiDigits(n: nat)
    ensures Atoi(Digits(n)) == Some(n)
  {
    DigitsValueOfDigits(n);
    DigitsHaveNoSign(n);
  }

  /** A minus sign before the digits of `n` reads back as `-n`. */
  lemma AtoiNegDigits(n: nat)
    ensures Atoi("-" + Digits(n)) == Some(-(n as int))
  {
    var s := "-" + Digits(n);
    DigitsValueOfDigits(n);
    DigitsHaveNoSign(n);
    assert s[0] == '-';
    assert s[1..] == Digits(n);
  }

  /** Formatting with `%d` and reading back with `Atoi` returns the same integer. */
  lemma AtoiItoa(n: int)
    ensures Atoi(Itoa(n)) == Some(n)
  {
    if n < 0 {
      AtoiNegDigits(-n);
    } else {
      AtoiDigits(n);
    }
  }

  /** Zero padding does not change the value `Atoi` reads. */
  lemma AtoiPad2(n: int)
    ensures Atoi(Pad2(n)) == Some(n)
  {
    if 0 <= n < 10 {
      var s := Pad2(n);
      assert s == ['0', DigitChar(n)];
      assert s[..1] == ['0'];
      assert DigitsValue(s[..1]) == 0;
    } else {
      AtoiItoa(n);
    }
  }

  /** Formatted integers contain neither white space nor a colon. */
  lemma Pad2Plain(n: int)
    ensures ':' !in Pad2(n)
    ensures !IsSpace(Pad2(n)[0]) && !IsSpace(Pad2(n)[|Pad2(n)| - 1])
  {
    DigitsHaveNoSign(if n < 0 then -n else n);
  }

  /** `%d` output consists of an optional minus sign and digits, ending in a digit. */
  lemma ItoaChars(n: int)
    ensures forall i :: 0 <= i < |Itoa(n)| ==> Itoa(n)[i] == '-' || IsDigit(Itoa(n)[i])
    ensures IsDigit(Itoa(n)[|Itoa(n)| - 1])
  {
  }

  /** `Atoi` accepts no white space and no colon anywhere, so untrimmed fields fail. */
  lemma AtoiRejectsSpace(s: string)
    ensures Atoi(s).Some? ==> forall i :: 0 <= i < |s| ==> !IsSpace(s[i]) && s[i] != ':'
  {
    if Atoi(s).Some? && |s| > 0 && (s[0] == '+' || s[0] == '-') {
      var body := s[1..];
      forall i | 1 <= i < |s|
        ensures IsDigit(s[i])
      {
        assert s[i] == body[i - 1];
      }
    }
  }
}

=== FILE: timer.dfy ===
/**
 * One timer (main.go:16-42, 122-152, 304-351): an immutable program of
 * work/break phases and the per-second transition function `Update`.
 * Durations are whole seconds. The desktop notification the Go code sends
 * is returned as a `Notification` event in the step result instead.
 */
module Timers {
  import opened Wrappers
  import opened Text

  /** `maxCycles` value meaning "repeat the phase forever". */
  const Unlimited: int := -1

  /** One phase: a work period followed by a break, in seconds. */
  datatype TimerPhase = TimerPhase(workDuration: int, breakDuration: int)

  /** The mutable part of a timer. */
  datatype TimerState = TimerState(
    isWork: bool,
    currentTime: int,   // seconds left in the current sub-phase
    cycles: int,        // 1-based cycle number within the current phase
    currentPhase: int,  // index into the timer's phases
    name: string,
    notifText: string)

  datatype Timer = Timer(
    state: TimerState,
    phases: seq<TimerPhase>,
    maxCycles: int,     // Unlimited, or the number of cycles per phase
    isPaused: bool)

  /** The persisted description of a timer: its program without the running state. */
  datatype TimerConfig = TimerConfig(
    name: string,
    notifText: string,
    phases: seq<TimerPhase>,
    maxCycles: int)

  /** A call of `notify(title, message)`. */
  datatype Notification = Notification(title: string, body: string)

  /** The outcome of one `update`: the new timer, whether it finished, what it announced. */
  datatype Step = Step(timer: Timer, completed: bool, notes: seq<Notification>)

  /**
   * The Go code indexes `phases[currentPhase]` only when the timer runs and
   * its time is used up; this is exactly what keeps that index in range.
   */
  predicate CanUpdate(t: Timer) {
    t.isPaused || t.state.currentTime > 0 || 0 <= t.state.currentPhase < |t.phases|
  }

  /** The invariant every live timer keeps between ticks. */
  predicate Valid(t: Timer) {
    && |t.phases| > 0
    && 0 <= t.state.currentPhase < |t.phases|
    && t.state.cycles >= 1
  }

  /** The projection onto the persisted description. */
  function ConfigOf(t: Timer): TimerConfig {
    TimerConfig(t.state.name, t.state.notifText, t.phases, t.maxCycles)
  }

  /** A break is over: a running timer on break with no time left. */
  predicate BreakEnds(t: Timer) {
    !t.isPaused && !t.state.isWork && t.state.currentTime <= 0
  }

  /** Ending this break overruns the cycle bound, so the phase advances. */
  predicate Advances(t: Timer) {
    t.maxCycles != Unlimited && t.state.cycles + 1 > t.maxCycles
  }

  function BreakNote(t: Timer): Notification {
    Notification(t.state.name, "Break: " + t.state.notifText)
  }

  function WorkNote(t: Timer): Notification {
    Notification(t.state.name, t.state.notifText)
  }

  function DoneNote(t: Timer): Notification {
    Notification(t.state.name, "All phases completed: " + t.state.notifText)
  }

  /** `Timer.update`: one second of a timer's life. */
  function Update(t: Timer): (r: Step)
    requires CanUpdate(t)
    // the program, the identity and the pause flag never change
    ensures ConfigOf(r.timer) == ConfigOf(t) && r.timer.isPaused == t.isPaused
    // a paused timer is frozen and silent
    ensures t.isPaused ==> r == Step(t, false, [])
    // time left: one second less, nothing else
    ensures !t.isPaused && t.state.currentTime > 0 ==>
      && !r.completed && r.notes == []
      && r.timer.state == t.state.(currentTime := t.state.currentTime - 1)
    // work is over: switch to the break of the same phase and announce it
    ensures !t.isPaused && t.state.isWork && t.state.currentTime <= 0 ==>
      && !r.completed && r.notes == [BreakNote(t)]
      && !r.timer.state.isWork
      && r.timer.state.currentTime == t.phases[t.state.currentPhase].breakDuration
      && r.timer.state.cycles == t.state.cycles
      && r.timer.state.currentPhase == t.state.currentPhase
    // a break is over: the timer completes iff the phase advances past the last one
    ensures BreakEnds(t) ==>
      (r.completed <==> Advances(t) && t.state.currentPhase + 1 >= |t.phases|)
    ensures BreakEnds(t) && !r.completed ==>
      && r.notes == [WorkNote(t)]
      && r.timer.state.isWork
      && r.timer.state.currentPhase == t.state.currentPhase + (if Advances(t) then 1 else 0)
      && r.timer.state.cycles == (if Advances(t) then 1 else t.state.cycles + 1)
      && r.timer.state.currentTime == t.phases[r.timer.state.currentPhase].workDuration
    // completion leaves the phase index one past the end
    ensures r.completed ==>
      && r.notes == [DoneNote(t)]
      && r.timer.state.currentPhase == |t.phases|
    ensures t.maxCycles == Unlimited ==> !r.completed
    ensures Valid(t) && !r.completed ==> Valid(r.timer)
  {
    if t.isPaused then Step(t, false, [])
    else if t.state.currentTime <= 0 then
      var phase := t.phases[t.state.currentPhase];
      if t.state.isWork then
        Step(t.(state := t.state.(isWork := false, currentTime := phase.breakDuration)),
             false, [BreakNote(t)])
      else
        var cycles := t.state.cycles + 1;
        if t.maxCycles != Unlimited && cycles > t.maxCycles then
          var next := t.state.currentPhase + 1;
          if next >= |t.phases| then
            Step(t.(state := t.state.(cycles := cycles, currentPhase := next)), true, [DoneNote(t)])
          else
            Step(t.(state := t.state.(isWork := true, cycles := 1, currentPhase := next,
                                      currentTime := t.phases[next].workDuration)),
                 false, [WorkNote(t)])
        else
          Step(t.(state := t.state.(isWork := true, cycles := cycles,
                                    currentTime := t.phases[t.state.currentPhase].workDuration)),
               false, [WorkNote(t)])
    else
      Step(t.(state := t.state.(currentTime := t.state.currentTime - 1)), false, [])
  }

  /** `timerFromConfig`: a fresh timer at the start of its first work period. */
  function FromConfig(c: TimerConfig): (t: Timer)
    requires |c.phases| > 0
    ensures Valid(t) && ConfigOf(t) == c
    ensures !t.isPaused && t.state.isWork
    ensures t.state.cycles == 1 && t.state.currentPhase == 0
    ensures t.state.currentTime == c.phases[0].workDuration
  {
    Timer(TimerState(true, c.phases[0].workDuration, 1, 0, c.name, c.notifText),
          c.phases, c.maxCycles, false)
  }

  /**
   * The cycle-type answer of `createTimer`: a positive integer bounds the
   * cycles per phase; "u" and everything else mean unlimited.
   */
  function CycleType(answer: string): (maxCycles: int)
    ensures maxCycles == Unlimited || maxCycles > 0
    ensures maxCycles > 0 <==> Atoi(answer).Some? && Atoi(answer).value > 0
    ensures maxCycles > 0 ==> maxCycles == Atoi(answer).value
  {
    if answer != "u" then
      match Atoi(answer)
      case Some(cycles) => if cycles > 0 then cycles else Unlimited
      case None => Unlimited
    else Unlimited
  }

  /**
   * `createTimer` after its prompts: the collected answers become a config
   * and a timer whose state literal is the one `timerFromConfig` builds.
   */
  function CreateTimer(name: string, notifText: string, phases: seq<TimerPhase>, cycleAnswer: string)
    : (r: (Timer, TimerConfig))
    requires |phases| > 0
    ensures r.1 == TimerConfig(name, notifText, phases, CycleType(cycleAnswer))
    ensures r.0 == FromConfig(r.1)
  {
    var config := TimerConfig(name, notifText, phases, CycleType(cycleAnswer));
    var timer := Timer(TimerState(true, phases[0].workDuration, 1, 0, name, notifText),
                       phases, config.maxCycles, false);
    (timer, config)
  }

  /** A positive limit written with `%d` is read back as that limit. */
  lemma CycleTypeItoa(n: int)
    requires n > 0
    ensures CycleType(Itoa(n)) == n
  {
    AtoiItoa(n);
  }

  lemma CycleTypeExamples()
    ensures CycleType("u") == Unlimited
    ensures CycleType("3") == 3
    ensures CycleType("0") == Unlimited
    ensures CycleType("-2") == Unlimited
    ensures CycleType("x") == Unlimited
  {
    assert Atoi("3") == Some(3);
    assert Atoi("0") == Some(0);
    assert Atoi("-2") == Some(-2);
    assert !IsDigit('x');
  }
}

=== FILE: wrappers.dfy ===
/** Failure-carrying result types shared by the parser and the command model. */
module Wrappers {

  /** A value that may be absent, as Go's `(v, ok)` or `(v, err)` pairs with the error dropped. */
  datatype Option<+T> = None | Some(value: T)

  /** A value or an error, as Go's `(v, err)` pairs. */
  datatype Result<+T, +E> = Ok(value: T) | Err(error: E)
}
